=== FILE: README.md ===
# Pain-entry state machine of the Pebble pain logger

A Dafny model of the control core of `pain.c`, a Pebble watch app. The user
logs a pain level from 0 to 10 with three buttons. The app writes each
accelerometer reading into a record and attaches the last committed pain entry
to the next record it writes. The app's state is a set of process-wide flags
and counters, changed by seven callbacks:

- the up, down and select button handlers;
- the once-per-second tick;
- the accelerometer delivery;
- the outbox's delivered and failed callbacks.

The model has one immutable `State` (module `PainState`) and one pure
transition function per handler:

- `PainDisplay`: the widget toggle, the three buttons and the tick.
- `PainAccel`: the accelerometer delivery.
- `PainMessages`: the outbox callbacks.
- `PainApp`: an event loop (`Step`, `Run`) over arbitrary interleavings of
  these callbacks. It also holds the invariants that every run keeps and the
  lemmas over event sequences.

Representation choices:

- The text of the pain-level layer is always `"5"` or the `snprintf` of a
  number in 0..10, and it is only read back with `atoi`. That round trip is
  exact, so the text is modelled as the number it shows (`shownLevel`). It is
  kept separate from `num_pain` (`numPain`) because the two differ at startup.
- Visibility is tracked in four places: the app's own `painlayer_hidden` and
  the hidden bits of the text layer and the two arrow layers. All four are
  modelled, and `VisibilityAgrees` states that they are equal.
- The counters are `uint16_t` and wrap at 2^16. `num_pain` and
  `num_pain_send` are `int8_t`.
- The clock is an input. The select handler takes the current time `now`. The
  tick takes the seconds field of the current time as a number.
- A delivery (`Batch`) holds as many readings as its `uint32_t` count can
  express. The app subscribes for 3 readings per delivery. The handler's
  `uint8_t` loop counter cannot reach counts of 256 or more (see Findings).
- A record is modelled as a logical value with signed fields, one per reading.
  Its memory placement is not modelled (see Findings).

Facts about the code that shape the model:

- The code has no send operation. `msg_run` is only ever set to false (by
  both outbox callbacks, pain.c:91 and pain.c:99), `sent_count` stays at 1, and `num_pain_send` is never written, so it keeps its zero
  initialisation.
- As a result, every acknowledgement clears the pain obligation
  (`DeliveryClearsPainObligation`). It does not depend on whether the
  acknowledged payload carried pain data.
- A commit closes the widget, so a second commit leaves the pending entry as
  it is for as long as no outbox acknowledgement arrives
  (`SelectTwiceIsOnce`, `ClosedUntilDelivered`). After an acknowledgement, a
  boundary tick re-opens the widget. A second commit before the next
  accelerometer delivery then replaces the pending level and time
  (`ReopenedCommitReplacesPending`).
- The outbox callbacks are modelled as events that may arrive at any time,
  although nothing in the code sends a message. Without them the widget never
  re-opens after the first commit (see Findings).

## Model

| member | source | states |
|---|---|---|
| PainDisplay.Toggle | pain.c:153-168 | The widget's visibility flips, decided by the text layer's hidden bit. Afterwards all four visibility bits agree. Showing resets both the level and the displayed number to 5. Hiding keeps them. No flag or counter changes. |
| PainDisplay.ToggleTwice | pain.c:153-168 | Two toggles restore the visibility. The only lasting effect is the level reset to 5. |
| PainDisplay.UpClick | pain.c:169-178 | With the widget hidden, the state is unchanged. With it open, the level becomes the displayed level plus one, clamped to 10. The display shows the new level, and nothing else changes. |
| PainDisplay.DownClick | pain.c:190-200 | With the widget hidden, the state is unchanged. With it open, the level becomes the displayed level minus one, clamped to 0. At 0 the level is set to 0. Nothing else changes. |
| PainDisplay.SelectClick | pain.c:180-188 | With the widget hidden, the state is unchanged. With it open, both pain flags are raised, the commit time becomes `now`, and the widget is hidden. With the visibility bits agreeing, as in every reachable state, the committed level is kept and no counter or other flag changes. If only the text layer is hidden, the close goes through the toggle's opening half: the layers are shown, the level is reset to 5, and only `painlayer_hidden` is set. |
| PainDisplay.SelectTwiceIsOnce | pain.c:180-188 | A second commit finds the widget closed and changes nothing. |
| PainDisplay.SecondTick | pain.c:61-87 | A second that is not a multiple of 15 changes nothing. On a multiple of 15 the widget ends hidden exactly when a pain entry awaits acknowledgement. Opening resets the level to 5, and only the widget changes. |
| PainDisplay.SecondTickIdempotent | pain.c:76-86 | A second tick at the same boundary changes nothing. |
| PainAccel.StoreSample | pain.c:105-123 | The record keeps the reading. It carries the pending level and commit time if an entry is pending, and the sentinel -1 in both fields otherwise. The pending mark is cleared, the accelerometer obligation raised and the sample count incremented modulo 2^16. |
| PainAccel.AccelBatch | pain.c:102-124 | There is one record per reading, in order, each keeping its reading. Only the first record carries the pending entry; every other record carries -1/-1. A non-empty delivery consumes the entry and raises the accelerometer obligation. The sample count grows by the batch size modulo 2^16, and nothing else changes. |
| PainAccel.PackAsWritten | pain.c:32-37 | Storing a record through the struct's `uint8_t` fields keeps each value only modulo 256. The reading's timestamp, stored into a 32-bit `time_t`, is kept only modulo 2^32. A commit time already in `time_t` range is kept. |
| PainAccel.PackingLosesReadings | pain.c:118 | Stored that way, the sentinel reads back as 255 and the axis value -1 as 255. The axis values 0 and 256 become the same byte, and the timestamp 2^32 ms reads back as 0. |
| PainAccel.SlotAsWritten | pain.c:106-108 | The loop writes reading `i` into slot `2i`, which lies beyond `i` for every `i > 0`. |
| PainAccel.BatchOverrunsBuffer | pain.c:52-53 | The overrun has two causes. The subscription asks for 3 readings while the array has 1 slot. The double index sends every reading `i > 0` to a slot other than `i`. Readings 1 and 2 of a delivery go to slots 2 and 4. |
| PainAccel.CounterAfterAsWritten | pain.c:105 | After `k` turns the `uint8_t` loop counter holds `k` modulo 256. It is always below 256. |
| PainAccel.LargeDeliveryNeverEnds | pain.c:102-105 | For a delivery of 256 or more readings, the loop test `i < num_samples` holds after every turn, so the loop never ends. |
| PainMessages.OutFailed | pain.c:89-92 | The failure count grows by one modulo 2^16 and the in-flight flag is cleared. Both obligations and every other field are unchanged. |
| PainMessages.OutReceived | pain.c:94-100 | The accelerometer obligation and the in-flight flag are cleared, and the acknowledgement count grows by one modulo 2^16. The pain obligation survives only when `num_pain_send` is -1. Nothing else changes. |
| PainMessages.OutcomesCommute | pain.c:89-100 | The failed and delivered callbacks commute. |
| PainMessages.FailureThenDelivery | pain.c:89-100 | A failure keeps both obligations. A delivery after it clears them, and both counts are up by one. |
| PainApp.Step | pain.c:238-249 | One invocation of a registered callback: the three buttons (registered at pain.c:202-206), the tick, the accelerometer delivery and the two outbox callbacks. Only a delivery writes records, one per reading. |
| PainApp.Run | pain.c:272 | The platform's event loop dispatches the registered callbacks one at a time (registrations at pain.c:238, pain.c:244 and pain.c:248-249). A run writes exactly one record per delivered reading. |
| PainApp.RunAppend | pain.c:272 | Handling two event sequences one after the other is the same as handling their concatenation. The second starts in the state the first left, and the records are the first's followed by the second's. |
| PainApp.StartupAsWritten | pain.c:13-24 | The start state the program sets up keeps the invariants but not level agreement: the widget is open and displays 5 while `num_pain` is 0. |
| PainApp.Startup | pain.c:234-237 | The corrected start state satisfies the full invariant with the widget open at level 5. The tick run at window load leaves it unchanged at any second. |
| PainApp.StepPreservesInv | pain.c:62-200 | Every handler keeps the visibility agreement and the 0..10 level bound. It also keeps `num_pain_send` at 0, `sent_count` at 1 and `msg_run` false, and keeps the level equal to the displayed number. |
| PainApp.RunPreservesInv | pain.c:62-200 | Every event sequence keeps both invariants. |
| PainApp.ReachableInv | pain.c:161-198 | In every state reachable from the corrected start `Startup()`, the level is within 0..10 and equals the displayed number. The visibility flag also equals the layers' hidden bits. |
| PainApp.ReachableAsWrittenConsistent | pain.c:13-24 | From the start state as written, every reachable state keeps the 0..10 bound and the visibility agreement. |
| PainApp.DeliveryClearsPainObligation | pain.c:94-97 | `num_pain_send` is never written, so in every reachable state an acknowledgement clears the pain obligation. |
| PainApp.ReopenedCommitReplacesPending | pain.c:180-188 | From the corrected start, the events are: commit at time 1, acknowledgement, boundary tick, up, commit at time 2, then a reading. The reading's record carries (6, 2), so the first entry was replaced before it was merged. |
| PainApp.ClosedUntilDelivered | pain.c:76-86 | Suppose the widget is closed while a pain entry awaits acknowledgement. Then no run without an acknowledgement re-opens it, clears the entry, or changes the level. |
| PainApp.OneEntryPerLaunch | pain.c:180-188 | From the program's start, after a commit and any events without an acknowledgement, the widget is still closed and the entry still awaited. No second commit can take effect. |
| PainApp.DeliveryReopensWidget | pain.c:77-80 | From a consistent state with the widget closed, an acknowledgement and then a tick on a 15-second boundary re-open the widget at level 5. |
| PainApp.AdjustmentsStayInRange | pain.c:170-200 | Any sequence of up and down presses from a level in 0..10 keeps the level in 0..10, changes only the level and the displayed number, and writes no record. |
| PainApp.UpsSaturate | pain.c:170-178 | `n` presses of up on the open widget raise the displayed number by `n`, capped at 10. |
| PainApp.DownsSaturate | pain.c:191-200 | `n` presses of down on the open widget lower the displayed number by `n`, floored at 0. |
| PainApp.TwentyUpsFromDefault | pain.c:161-176 | Twenty presses of up from the default level 5 end at 10. |
| PainApp.StepMergesOnlyPending | pain.c:112-122 | A handler writes a record carrying pain data only by consuming the pending entry. Only a commit makes an entry pending. |
| PainApp.PainMergedAtMostOnce | pain.c:112-122 | Over any run, the records carrying pain data plus the entry still pending never exceed the commits plus the entry pending at the start. Each commit is therefore merged at most once. |
| PainApp.FailureCommutes | pain.c:89-92 | A failure callback commutes with every handler, both in the state it leaves and in the records written. |
| PainApp.CommitRecordsShownLevel | pain.c:180-188 | Under the invariant, a commit on the open widget followed by a one-reading delivery writes a record with the displayed level and the commit time. |
| PainApp.StartupCommitsZero | pain.c:54 | From the start state as written, a commit and a delivery write a record with level 0, although the widget displayed 5. |
| PainApp.CommitBetweenReadings | pain.c:112-120 | The sequence is: a reading, two presses of up, a commit at time 100, then two readings. It writes -1/-1, then (7, 100), then -1/-1. |

## Left out

- Window, text-layer and bitmap creation and destruction, fonts, layout,
  click wiring and `main` (pain.c:126-151, pain.c:202-274). This is
  presentation code over the Pebble SDK, which is not part of this model.
  Only its effect on the start state is modelled: the layers are visible and
  show 5.
- Sending messages. No code in the file sends one, so there is no send
  operation. `acc_data`, the `KEY_*` constants and the unused `acc_time` are
  not modelled.
- Clock and text plumbing: `time(NULL)`, `strftime` and `strncpy` into
  two-character buffers, `atoi`, and the `APP_LOG` output. The tick receives
  the seconds as a number. Reading the seconds back from the text is not
  modelled: `strncpy` leaves the two-byte `seconds` buffer without a
  terminator, so `atoi` may read past it.
- The outbox callbacks (`Delivered`, `Failed`) are unconstrained environment
  events in the model. Nothing in the code sends a message, so in the program
  as written they never fire. Letting them fire at any time is a deliberate
  over-approximation. It stands for the missing sender, and every invariant is
  proved over all such interleavings.
- PainDisplay.SecondTick: the seconds are taken as any natural number instead
  of the value parsed from the clock text. Only the remainder modulo 15
  matters.
- PainAccel.AccelBatch: it states the logical records, not the memory the
  handler writes. The Findings rows for pain.c:34, pain.c:35 and
  pain.c:106-108 cover the memory separately. The model assumes that the
  writes past the array's end hit no global it reads; in particular
  `num_pain_send` keeps its zero, which `Consistent` and
  `DeliveryClearsPainObligation` rely on.
- Units of the record's times. The reading's timestamp is in milliseconds
  and `pain_time` (pain.c:184) is in seconds. The model keeps both numbers as
  given and does not reconcile the units. The widths of `time_t` and of the
  reading's timestamp come from the Pebble SDK, which is not part of this
  model.
- The outbox's failure reason is not modelled. It is only printed.

## Findings

| source | as written | input that shows it | evidently intended | confidence | as-written member | corrected member |
|---|---|---|---|---|---|---|
| pain.c:54 | `num_pain` starts at 0, but the pain-level layer is created showing "5" (pain.c:221) and starts visible. Select commits `num_pain` without reading the text. | Launch the app, press select, and let one accelerometer delivery arrive. The record carries level 0. | The committed level is the displayed 5. | medium, not executed | PainApp.StartupCommitsZero | PainApp.CommitRecordsShownLevel |
| pain.c:34 | `x`, `y`, `z` and `pain_level` are `uint8_t`. Signed 16-bit axis values are stored modulo 256, and the -1 sentinel is stored as 255. | A reading with x = 256 is stored as 0. A reading with x = -1 is stored as 255. A record without pain data holds 255. | Signed fields that keep the reading and the -1 sentinel. | high, not executed | PainAccel.PackingLosesReadings | PainAccel.AccelBatch |
| pain.c:35 | The record's `time` field is a `time_t`, 32-bit signed on the watch. It receives the reading's 64-bit millisecond timestamp (pain.c:111), so the value is cut to 32 bits. | A reading stamped 2^32 ms is stored as 0. | A field wide enough for the 64-bit timestamp. | medium (the widths come from the SDK headers), not executed | PainAccel.PackingLosesReadings | PainAccel.AccelBatch |
| pain.c:106-108 | Two causes combine. `num_samples = SAMPLE_COUNT*3` (pain.c:53) subscribes for 3 readings while `acc_data_array` has `SAMPLE_COUNT` = 1 slot (pain.c:10, pain.c:52). And `acc = &acc_data_array[i]` followed by `acc[i]` writes reading `i` to slot `2i`. | The second reading of any delivery is written to slot 2, past the array's end. The model assumes these stray writes hit no global it reads. A byte 255 landing in `num_pain_send` (pain.c:55), say, would read back as -1, `EMPTY_VALUE`, and then `Consistent` and `DeliveryClearsPainObligation` would no longer describe the program. | One slot for each subscribed reading, with reading `i` in slot `i`. | high, not executed | PainAccel.BatchOverrunsBuffer | PainAccel.AccelBatch |
| pain.c:105 | The loop counter `i` is a `uint8_t` compared against the `uint32_t` `num_samples` (pain.c:102). It wraps at 256. The defect is latent: the app subscribes for 3 readings (pain.c:53, pain.c:244), so a delivery of 256 cannot arrive as configured. | A delivery of 256 readings: the counter goes 255, 0, 1, … and the loop never ends. | A counter as wide as `num_samples`, so every delivery size ends. | high (latent), not executed | PainAccel.LargeDeliveryNeverEnds | PainAccel.AccelBatch |
| pain.c:182 | A commit sets `waiting_pain_data`, and only the acknowledgement callback clears it (pain.c:97). No code sends a message, so no acknowledgement arrives. The tick's re-opening branch (pain.c:77-80) then never runs again. | Launch, press select, then any events without an acknowledgement: the widget stays closed. Only one pain entry can be made per launch. | A sender whose acknowledgement clears the entry so that the next boundary tick re-opens the widget. | high, not executed | PainApp.OneEntryPerLaunch | PainApp.DeliveryReopensWidget |

=== FILE: pain_accel.dfy ===
/** accel_data_handler: every delivered reading is written into a record, and
    a committed pain entry that has not yet been merged is attached to the
    first record written after the commit, and to no other. */
module PainAccel {
  import opened PainState

  /** One turn of the handler's loop: writes the record for `d`, consuming the
      pending pain entry if there is one. */
  function StoreSample(s: State, d: AccelSample): (o: Outcome)
    ensures |o.written| == 1 && Keeps(o.written[0], d)
    ensures s.waitingPainDataUpdate ==>
      o.written[0].painLevel == s.numPain && o.written[0].painTime == s.painTime
    ensures !s.waitingPainDataUpdate ==> Unmarked(o.written[0])
    ensures !o.state.waitingPainDataUpdate && o.state.waitingAccelData
    ensures o.state.sampleCount == (s.sampleCount + 1) % U16Modulus
    ensures o.state.(waitingPainDataUpdate := s.waitingPainDataUpdate,
                     waitingAccelData := s.waitingAccelData,
                     sampleCount := s.sampleCount) == s
  {
    var rec :=
      if s.waitingPainDataUpdate then Record(d.x, d.y, d.z, d.timestamp, s.numPain, s.painTime)
      else Record(d.x, d.y, d.z, d.timestamp, EmptyValue, EmptyValue);
    var next := s.(waitingPainDataUpdate := false, waitingAccelData := true,
                   sampleCount := Inc16(s.sampleCount));
    Outcome(next, [rec])
  }

  /** The whole handler for one delivery. One record per reading, in order,
      each holding its reading unchanged; only the first carries the pending
      pain entry, the rest carry the sentinel; the pending entry is consumed
      by any non-empty delivery; the stored-sample count advances by the
      batch size modulo 2^16; nothing else changes. */
  function AccelBatch(s: State, batch: Batch): (o: Outcome)
    ensures |o.written| == |batch|
    ensures forall i :: 0 <= i < |batch| ==> Keeps(o.written[i], batch[i])
    ensures forall i :: 0 <= i < |batch| ==>
      if i == 0 && s.waitingPainDataUpdate
      then o.written[i].painLevel == s.numPain && o.written[i].painTime == s.painTime
      else Unmarked(o.written[i])
    ensures o.state == s.(waitingPainDataUpdate := s.waitingPainDataUpdate && |batch| == 0,
                          waitingAccelData := s.waitingAccelData || |batch| > 0,
                          sampleCount := (s.sampleCount + |batch|) % U16Modulus)
    decreases |batch|
  {
    if |batch| == 0 then Outcome(s, [])
    else
      var first := StoreSample(s, batch[0]);
      var rest := AccelBatch(first.state, batch[1..]);
      Outcome(rest.state, first.written + rest.written)
  }

  /** The record layout in memory: x, y, z and pain_level are 8-bit unsigned
      fields, the two times are `time_t`, a 32-bit signed integer on the
      watch. */
  datatype PackedRecord = PackedRecord(x: int, y: int, z: int, painLevel: int, time: int, painTime: int)

  /** A store into an 8-bit unsigned field keeps the value modulo 2^8. */
  function ToU8(n: int): (r: int)
    ensures 0 <= r < 0x100 && (r - n) % 0x100 == 0
  {
    n % 0x100
  }

  /** A store into a 32-bit signed `time_t` keeps the value modulo 2^32,
      read back in -2^31..2^31-1. */
  function ToTimeT(n: int): (r: int)
    ensures -0x8000_0000 <= r < 0x8000_0000 && (r - n) % 0x1_0000_0000 == 0
    ensures -0x8000_0000 <= n < 0x8000_0000 ==> r == n
  {
    (n + 0x8000_0000) % 0x1_0000_0000 - 0x8000_0000
  }

  /** The record as the handler actually stores it, through the 8-bit fields
      and the `time_t` fields. */
  function PackAsWritten(rec: Record): (p: PackedRecord)
    ensures 0 <= p.x < 0x100 && 0 <= p.y < 0x100 && 0 <= p.z < 0x100 && 0 <= p.painLevel < 0x100
    ensures (p.x - rec.x) % 0x100 == 0 && (p.y - rec.y) % 0x100 == 0
    ensures (p.z - rec.z) % 0x100 == 0 && (p.painLevel - rec.painLevel) % 0x100 == 0
    ensures -0x8000_0000 <= p.time < 0x8000_0000 && (p.time - rec.time) % 0x1_0000_0000 == 0
    ensures -0x8000_0000 <= rec.painTime < 0x8000_0000 ==> p.painTime == rec.painTime
  {
    PackedRecord(ToU8(rec.x), ToU8(rec.y), ToU8(rec.z), ToU8(rec.painLevel),
                 ToTimeT(rec.time), ToTimeT(rec.painTime))
  }

  /** The stored form loses information: the sentinel reads back as 255,
      two readings 256 apart on an axis become the same byte, and a
      millisecond timestamp of 2^32 or more is cut down to 32 bits. */
  lemma PackingLosesReadings()
    ensures PackAsWritten(Record(0, 0, 0, 0, EmptyValue, EmptyValue)).painLevel == 0xFF
    ensures PackAsWritten(Record(0, 0, 0, 0, EmptyValue, EmptyValue))
         == PackAsWritten(Record(0x100, 0, 0, 0, EmptyValue, EmptyValue))
    ensures PackAsWritten(Record(-1, 0, 0, 0, EmptyValue, EmptyValue)).x == 0xFF
    ensures PackAsWritten(Record(0, 0, 0, 0x1_0000_0000, EmptyValue, EmptyValue)).time == 0
  {
  }

  /** Capacity of the record array (SAMPLE_COUNT). */
  const BufferCapacity: nat := 1
  /** Readings per delivery the handler is subscribed for (num_samples, set
      to three times SAMPLE_COUNT as if each reading were one axis). */
  const SubscribedBatch: nat := 3

  /** The array slot the loop writes for reading `i`: it first takes the
      address of slot `i` and then indexes `i` past it. */
  function SlotAsWritten(i: nat): (slot: nat)
    ensures i > 0 ==> slot > i
  {
    i + i
  }

  /** Two causes put readings past the end of the one-slot array: the
      subscription asks for more readings than the array has slots, and the
      double index sends reading `i` to a slot other than `i`. */
  lemma BatchOverrunsBuffer()
    ensures SubscribedBatch > BufferCapacity
    ensures forall i: nat :: i > 0 ==> SlotAsWritten(i) != i
    ensures forall i: nat :: 0 < i < SubscribedBatch ==> SlotAsWritten(i) >= BufferCapacity
    ensures SlotAsWritten(SubscribedBatch - 1) == 4
  {
  }

  /** The loop counter after `k` turns: an 8-bit unsigned integer, so it
      wraps back to 0 after 255. */
  function CounterAfterAsWritten(k: nat): (i: int)
    ensures 0 <= i < 0x100
    ensures k < 0x100 ==> i == k
  {
    k % 0x100
  }

  /** For a delivery of 256 or more readings the loop test `i < num_samples`
      holds after every turn, so the loop never ends. */
  lemma LargeDeliveryNeverEnds(n: nat)
    requires n >= 0x100
    ensures forall k: nat :: CounterAfterAsWritten(k) < n
  {
  }
}

=== FILE: pain_app.dfy ===
/** The application as an event loop: its start state, one step per handler
    invocation, runs of arbitrary event sequences, and the properties every
    run keeps. */
module PainApp {
  import opened PainState
  import opened PainDisplay
  import opened PainAccel
  import opened PainMessages

  /** The handler invocations the platform can make, one at a time. */
  datatype Event =
    | Up                  // up button
    | Down                // down button
    | Select(now: int)    // select button, at time `now`
    | Tick(seconds: nat)  // once per second, with the seconds of the current time
    | Accel(batch: Batch) // accelerometer delivery
    | Delivered           // the outbox reports a message delivered
    | Failed              // the outbox reports a message failed

  /** One handler invocation. Only accelerometer deliveries write records. */
  function Step(s: State, e: Event): (o: Outcome)
    ensures |o.written| == if e.Accel? then |e.batch| else 0
  {
    match e
    case Up => Outcome(UpClick(s), [])
    case Down => Outcome(DownClick(s), [])
    case Select(now) => Outcome(SelectClick(s, now), [])
    case Tick(seconds) => Outcome(SecondTick(s, seconds), [])
    case Accel(batch) => AccelBatch(s, batch)
    case Delivered => Outcome(OutReceived(s), [])
    case Failed => Outcome(OutFailed(s), [])
  }

  /** Number of readings delivered by the accelerometer events of `es`. */
  function Readings(es: seq<Event>): nat
    decreases |es|
  {
    if |es| == 0 then 0
    else (if es[0].Accel? then |es[0].batch| else 0) + Readings(es[1..])
  }

  /** The events `es` handled in order; the records are those written, in
      the order they were written. */
  function Run(s: State, es: seq<Event>): (o: Outcome)
    ensures |o.written| == Readings(es)
    decreases |es|
  {
    if |es| == 0 then Outcome(s, [])
    else
      var first := Step(s, es[0]);
      var rest := Run(first.state, es[1..]);
      Outcome(rest.state, first.written + rest.written)
  }

  /** What every state the handlers can reach satisfies: the visibility flag
      agrees with the three layers, the level is within 0..10, num_pain_send
      and sent_count keep their start values (no handler writes them), and
      msg_run is false (handlers only ever clear it). */
  ghost predicate Consistent(s: State)
  {
    && VisibilityAgrees(s)
    && 0 <= s.numPain <= MaxLevel
    && s.numPainSend == 0
    && s.sentCount == 1
    && !s.msgRun
  }

  /** A consistent state whose level is the one the widget displays. */
  ghost predicate Inv(s: State)
  {
    Consistent(s) && s.numPain == s.shownLevel
  }

  /** The globals as the program starts them: all zero except sent_count,
      which starts at 1; the widget's three layers are created visible with
      the text "5". num_pain is left at 0, so the state disagrees with what
      the widget shows. */
  function StartupAsWritten(): (s: State)
    ensures Consistent(s) && !Inv(s)
    ensures !s.painlayerHidden && s.shownLevel == DefaultLevel && s.numPain == 0
  {
    State(numPain := 0, shownLevel := DefaultLevel, numPainSend := 0, painTime := 0,
          sampleCount := 0, sentCount := 1, ackCount := 0, failCount := 0,
          waitingAccelData := false, waitingPainData := false,
          waitingPainDataUpdate := false, msgRun := false,
          painlayerHidden := false, levelLayerHidden := false,
          upArrowHidden := false, downArrowHidden := false)
  }

  /** The start state with num_pain initialised to the level the widget
      displays. The tick the window load runs straight away leaves it as is,
      whatever the second. */
  function Startup(): (s: State)
    ensures Inv(s) && !s.painlayerHidden && s.numPain == DefaultLevel
    ensures forall seconds: nat :: SecondTick(s, seconds) == s
  {
    StartupAsWritten().(numPain := DefaultLevel)
  }

  /** Every handler keeps both invariants. */
  lemma StepPreservesInv(s: State, e: Event)
    ensures Consistent(s) ==> Consistent(Step(s, e).state)
    ensures Inv(s) ==> Inv(Step(s, e).state)
  {
  }

  /** Every run keeps both invariants. */
  lemma {:induction false} RunPreservesInv(s: State, es: seq<Event>)
    ensures Consistent(s) ==> Consistent(Run(s, es).state)
    ensures Inv(s) ==> Inv(Run(s, es).state)
    decreases |es|
  {
    if |es| > 0 {
      StepPreservesInv(s, es[0]);
      RunPreservesInv(Step(s, es[0]).state, es[1..]);
    }
  }

  /** Every state reachable from the start: level within 0..10, equal to
      the displayed level, visibility flag equal to the layers' hidden bits. */
  lemma ReachableInv(es: seq<Event>)
    ensures Inv(Run(Startup(), es).state)
  {
    RunPreservesInv(Startup(), es);
  }

  /** The same bounds and agreement hold from the start state as written. */
  lemma ReachableAsWrittenConsistent(es: seq<Event>)
    ensures Consistent(Run(StartupAsWritten(), es).state)
  {
    RunPreservesInv(StartupAsWritten(), es);
  }

  /** Since num_pain_send is never written it is never the sentinel, so every
      acknowledgement clears the pain obligation. */
  lemma DeliveryClearsPainObligation(es: seq<Event>)
    ensures !OutReceived(Run(StartupAsWritten(), es).state).waitingPainData
    ensures !OutReceived(Run(Startup(), es).state).waitingPainData
  {
    ReachableAsWrittenConsistent(es);
    ReachableInv(es);
  }

  /** Without an acknowledgement, a widget closed while a pain entry awaits
      acknowledgement stays closed and the entry stays awaited: every tick
      keeps it hidden and every button press finds it hidden. */
  lemma {:induction false} ClosedUntilDelivered(s: State, es: seq<Event>)
    requires VisibilityAgrees(s) && s.waitingPainData && s.levelLayerHidden
    requires forall i :: 0 <= i < |es| ==> !es[i].Delivered?
    ensures var r := Run(s, es).state;
      && VisibilityAgrees(r) && r.waitingPainData && r.levelLayerHidden
      && r.numPain == s.numPain && r.shownLevel == s.shownLevel
    decreases |es|
  {
    if |es| > 0 {
      assert !es[0].Delivered?;
      ClosedUntilDelivered(Step(s, es[0]).state, es[1..]);
    }
  }

  /** The program as written sends nothing, so no acknowledgement ever
      arrives: after the first commit from the start state, no later event
      re-opens the widget and no later commit takes effect. */
  lemma OneEntryPerLaunch(now: int, es: seq<Event>)
    requires forall i :: 0 <= i < |es| ==> !es[i].Delivered?
    ensures var r := Run(StartupAsWritten(), [Select(now)] + es).state;
      r.waitingPainData && r.painlayerHidden && r.levelLayerHidden
  {
    var s := SelectClick(StartupAsWritten(), now);
    assert ([Select(now)] + es)[1..] == es;
    ClosedUntilDelivered(s, es);
  }

  /** With an acknowledgement, as a sender would bring about, the next tick on
      a 15-second boundary re-opens the widget at the default level. */
  lemma DeliveryReopensWidget(s: State, seconds: nat)
    requires Consistent(s) && s.levelLayerHidden && seconds % TickPeriod == 0
    ensures var r := Run(s, [Delivered, Tick(seconds)]).state;
      && !r.waitingPainData && !r.painlayerHidden && !r.levelLayerHidden
      && r.numPain == DefaultLevel && r.shownLevel == DefaultLevel
  {
    var acked := OutReceived(s);
    assert !acked.waitingPainData && acked.levelLayerHidden;
    var ticked := SecondTick(acked, seconds);
    assert ticked == Toggle(acked);
    assert Run(acked, [Tick(seconds)]).state == ticked by {
      assert [Tick(seconds)][1..] == [];
    }
    assert [Delivered, Tick(seconds)][1..] == [Tick(seconds)];
  }

  /** Running two event sequences one after the other is running their
      concatenation: the second starts where the first ended, and the records
      are those of the first followed by those of the second. */
  lemma {:induction false} RunAppend(s: State, a: seq<Event>, b: seq<Event>)
    ensures var first := Run(s, a);
      var rest := Run(first.state, b);
      Run(s, a + b) == Outcome(rest.state, first.written + rest.written)
    decreases |a|
  {
    if |a| == 0 {
      assert a + b == b;
    } else {
      assert (a + b)[1..] == a[1..] + b;
      RunAppend(Step(s, a[0]).state, a[1..], b);
    }
  }

  /** Once an acknowledgement and a boundary tick re-open the widget, a
      second commit before the next accelerometer delivery replaces the
      pending entry: the delivery carries the second level and time. */
  lemma ReopenedCommitReplacesPending(d: AccelSample)
    ensures var es := [Select(1), Delivered, Tick(0), Up, Select(2), Accel([d])];
      Run(Startup(), es).written == [Record(d.x, d.y, d.z, d.timestamp, 6, 2)]
  {
    var commits := [Select(1), Delivered, Tick(0), Up, Select(2)];
    var s5 := SelectClick(UpClick(SecondTick(OutReceived(SelectClick(Startup(), 1)), 0)), 2);
    assert s5.waitingPainDataUpdate && s5.painTime == 2 && s5.numPain == 6;
    assert Run(Startup(), commits) == Outcome(s5, []);
    assert [Accel([d])][1..] == [];
    RunAppend(Startup(), commits, [Accel([d])]);
    assert commits + [Accel([d])] == [Select(1), Delivered, Tick(0), Up, Select(2), Accel([d])];
  }

  predicate Adjustment(e: Event)
  {
    e.Up? || e.Down?
  }

  /** Any sequence of up and down presses keeps the level within 0..10 and
      changes nothing but the level. */
  lemma {:induction false} AdjustmentsStayInRange(s: State, es: seq<Event>)
    requires 0 <= s.numPain <= MaxLevel
    requires forall i :: 0 <= i < |es| ==> Adjustment(es[i])
    ensures var o := Run(s, es);
      && 0 <= o.state.numPain <= MaxLevel
      && o.state == s.(numPain := o.state.numPain, shownLevel := o.state.shownLevel)
      && o.written == []
    decreases |es|
  {
    if |es| > 0 {
      assert Adjustment(es[0]);
      var first := Step(s, es[0]);
      assert first.written == [];
      assert 0 <= first.state.numPain <= MaxLevel;
      assert first.state == s.(numPain := first.state.numPain, shownLevel := first.state.shownLevel);
      AdjustmentsStayInRange(first.state, es[1..]);
    }
  }

  /** `n` presses of up on the open widget raise the displayed level by `n`,
      stopping at 10; after at least one press the level agrees with it. */
  lemma {:induction false} UpsSaturate(s: State, n: nat)
    requires !s.painlayerHidden
    ensures var r := Run(s, seq(n, _ => Up)).state;
      r.shownLevel == Clamp(s.shownLevel + n) && (n > 0 ==> r.numPain == r.shownLevel)
    decreases n
  {
    if n > 0 {
      assert seq(n, _ => Up)[1..] == seq(n - 1, _ => Up);
      UpsSaturate(UpClick(s), n - 1);
    }
  }

  /** `n` presses of down on the open widget lower the displayed level by
      `n`, stopping at 0; after at least one press the level agrees with it. */
  lemma {:induction false} DownsSaturate(s: State, n: nat)
    requires !s.painlayerHidden
    ensures var r := Run(s, seq(n, _ => Down)).state;
      r.shownLevel == Clamp(s.shownLevel - n) && (n > 0 ==> r.numPain == r.shownLevel)
    decreases n
  {
    if n > 0 {
      assert seq(n, _ => Down)[1..] == seq(n - 1, _ => Down);
      DownsSaturate(DownClick(s), n - 1);
    }
  }

  /** Twenty presses of up from the default level end at 10. */
  lemma TwentyUpsFromDefault()
    ensures Run(Startup(), seq(20, _ => Up)).state.numPain == MaxLevel
  {
    UpsSaturate(Startup(), 20);
  }

  /** Number of records that carry pain data. */
  function MarkedCount(recs: seq<Record>): nat
    decreases |recs|
  {
    if |recs| == 0 then 0
    else (if Unmarked(recs[0]) then 0 else 1) + MarkedCount(recs[1..])
  }

  lemma {:induction false} MarkedCountAppend(a: seq<Record>, b: seq<Record>)
    ensures MarkedCount(a + b) == MarkedCount(a) + MarkedCount(b)
    decreases |a|
  {
    if |a| > 0 {
      assert (a + b)[1..] == a[1..] + b;
      MarkedCountAppend(a[1..], b);
    } else {
      assert a + b == b;
    }
  }

  /** Records that all carry the sentinel count for nothing. */
  lemma {:induction false} MarkedCountOfUnmarked(recs: seq<Record>)
    requires forall i :: 0 <= i < |recs| ==> Unmarked(recs[i])
    ensures MarkedCount(recs) == 0
    decreases |recs|
  {
    if |recs| > 0 {
      assert forall i :: 0 <= i < |recs| - 1 ==> recs[1..][i] == recs[i + 1];
      MarkedCountOfUnmarked(recs[1..]);
    }
  }

  function SelectCount(es: seq<Event>): nat
    decreases |es|
  {
    if |es| == 0 then 0 else (if es[0].Select? then 1 else 0) + SelectCount(es[1..])
  }

  function Pending(s: State): nat
  {
    if s.waitingPainDataUpdate then 1 else 0
  }

  /** One handler merges a pain entry into a record only by consuming the
      pending one, and only a commit makes one pending. */
  lemma StepMergesOnlyPending(s: State, e: Event)
    ensures var o := Step(s, e);
      MarkedCount(o.written) + Pending(o.state) <= (if e.Select? then 1 else 0) + Pending(s)
  {
    var o := Step(s, e);
    if e.Accel? && |e.batch| > 0 {
      var recs := o.written;
      assert recs == recs[..1] + recs[1..];
      MarkedCountAppend(recs[..1], recs[1..]);
      assert forall i :: 0 <= i < |recs| - 1 ==> recs[1..][i] == recs[i + 1];
      MarkedCountOfUnmarked(recs[1..]);
    } else if e.Accel? {
      MarkedCountOfUnmarked(o.written);
    }
  }

  /** Consume-once over a whole run: the records carrying pain data, plus the
      entry still pending at the end, never outnumber the commits plus the
      entry pending at the start. */
  lemma {:induction false} PainMergedAtMostOnce(s: State, es: seq<Event>)
    ensures var o := Run(s, es);
      MarkedCount(o.written) + Pending(o.state) <= SelectCount(es) + Pending(s)
    decreases |es|
  {
    if |es| > 0 {
      var first := Step(s, es[0]);
      StepMergesOnlyPending(s, es[0]);
      PainMergedAtMostOnce(first.state, es[1..]);
      MarkedCountAppend(first.written, Run(first.state, es[1..]).written);
    }
  }

  /** A failure report commutes with every handler: it only counts and frees
      the gate, which no other handler reads. */
  lemma FailureCommutes(s: State, e: Event)
    ensures Step(OutFailed(s), e) == Outcome(OutFailed(Step(s, e).state), Step(s, e).written)
  {
    if e.Accel? {
      var a := AccelBatch(OutFailed(s), e.batch);
      var b := AccelBatch(s, e.batch);
      assert a.written == b.written;
    }
  }

  /** A commit on the open widget followed by a one-reading delivery: the
      record carries the level the widget displayed and the commit time. */
  lemma CommitRecordsShownLevel(s: State, now: int, d: AccelSample)
    requires Inv(s) && !s.painlayerHidden
    ensures Run(s, [Select(now), Accel([d])]).written
         == [Record(d.x, d.y, d.z, d.timestamp, s.shownLevel, now)]
  {
  }

  /** From the start state as written, a commit before any other button
      records level 0 although the widget displays 5. */
  lemma StartupCommitsZero(now: int, d: AccelSample)
    ensures StartupAsWritten().shownLevel == DefaultLevel
    ensures Run(StartupAsWritten(), [Select(now), Accel([d])]).written
         == [Record(d.x, d.y, d.z, d.timestamp, 0, now)]
  {
  }

  /** A reading, a commit of level 7 at time 100, then two more readings:
      only the record written right after the commit carries (7, 100). */
  lemma CommitBetweenReadings(a: AccelSample, b: AccelSample, c: AccelSample)
    ensures var es := [Accel([a]), Up, Up, Select(100), Accel([b]), Accel([c])];
      Run(Startup(), es).written
        == [Record(a.x, a.y, a.z, a.timestamp, EmptyValue, EmptyValue),
            Record(b.x, b.y, b.z, b.timestamp, 7, 100),
            Record(c.x, c.y, c.z, c.timestamp, EmptyValue, EmptyValue)]
  {
    var ra := Record(a.x, a.y, a.z, a.timestamp, EmptyValue, EmptyValue);
    var rb := Record(b.x, b.y, b.z, b.timestamp, 7, 100);
    var rc := Record(c.x, c.y, c.z, c.timestamp, EmptyValue, EmptyValue);
    var s1 := AccelBatch(Startup(), [a]).state;
    var s4 := SelectClick(UpClick(UpClick(s1)), 100);
    assert s4.waitingPainDataUpdate && s4.numPain == 7;
    var s5 := AccelBatch(s4, [b]).state;
    assert Run(Startup(), [Accel([a])]) == Outcome(s1, [ra]) by {
      assert [Accel([a])][1..] == [];
    }
    assert Run(s1, [Up, Up, Select(100)]) == Outcome(s4, []);
    assert Run(s4, [Accel([b]), Accel([c])]).written == [rb, rc] by {
      assert AccelBatch(s4, [b]) == Outcome(s5, [rb]);
      assert AccelBatch(s5, [c]).written == [rc];
      assert [Accel([b]), Accel([c])][1..][1..] == [];
    }
    RunAppend(Startup(), [Accel([a])], [Up, Up, Select(100)]);
    RunAppend(Startup(), [Accel([a]), Up, Up, Select(100)], [Accel([b]), Accel([c])]);
    assert [Accel([a])] + [Up, Up, Select(100)] == [Accel([a]), Up, Up, Select(100)];
    assert [Accel([a]), Up, Up, Select(100)] + [Accel([b]), Accel([c])]
        == [Accel([a]), Up, Up, Select(100), Accel([b]), Accel([c])];
  }
}

=== FILE: pain_display.dfy ===
/** The pain-entry widget: opening and closing it, the three buttons that
    adjust and commit the level, and the once-per-second tick that re-opens or
    closes it on every 15th second. */
module PainDisplay {
  import opened PainState

  /** Sets the application's visibility flag and the hidden bits of all three
      layers of the widget. */
  function SetHidden(s: State, hidden: bool): (r: State)
    ensures VisibilityAgrees(r) && r.levelLayerHidden == hidden
  {
    s.(painlayerHidden := hidden, levelLayerHidden := hidden,
       upArrowHidden := hidden, downArrowHidden := hidden)
  }

  /** toggle_painlayer: decides on the text layer's own hidden bit. A visible
      widget is hidden with its level kept; a hidden one is shown with the
      level reset to the default. */
  function Toggle(s: State): (r: State)
    ensures r.levelLayerHidden == !s.levelLayerHidden
    ensures VisibilityAgrees(r)
    ensures s.levelLayerHidden ==> r.numPain == DefaultLevel && r.shownLevel == DefaultLevel
    ensures !s.levelLayerHidden ==> r.numPain == s.numPain && r.shownLevel == s.shownLevel
    ensures SameBookkeeping(s, r)
  {
    if !s.levelLayerHidden then SetHidden(s, true)
    else SetHidden(s.(shownLevel := DefaultLevel, numPain := DefaultLevel), false)
  }

  /** Toggling twice gives back the same visibility; the only trace left is
      the level, reset by the opening half. */
  lemma ToggleTwice(s: State)
    requires VisibilityAgrees(s)
    ensures Toggle(Toggle(s)) == s.(numPain := DefaultLevel, shownLevel := DefaultLevel)
  {
  }

  /** up_single_click_handler: when the widget is open, reads the shown level
      and raises it by one unless it is already 10. */
  function UpClick(s: State): (r: State)
    ensures s.painlayerHidden ==> r == s
    ensures !s.painlayerHidden ==> r.numPain == Clamp(s.shownLevel + 1) && r.shownLevel == r.numPain
    ensures r.shownLevel >= s.shownLevel
    ensures r == s.(numPain := r.numPain, shownLevel := r.shownLevel)
  {
    if s.painlayerHidden then s
    else
      var level := s.shownLevel;
      if level < MaxLevel then s.(numPain := level + 1, shownLevel := level + 1)
      else s.(numPain := level)
  }

  /** down_single_click_handler: when the widget is open, reads the shown level
      and lowers it by one unless it is already 0, in which case the level is
      set to 0. */
  function DownClick(s: State): (r: State)
    ensures s.painlayerHidden ==> r == s
    ensures !s.painlayerHidden ==> r.numPain == Clamp(s.shownLevel - 1) && r.shownLevel == r.numPain
    ensures r.shownLevel <= s.shownLevel
    ensures r == s.(numPain := r.numPain, shownLevel := r.shownLevel)
  {
    if s.painlayerHidden then s
    else
      var level := s.shownLevel;
      if level > 0 then s.(numPain := level - 1, shownLevel := level - 1)
      else s.(numPain := 0)
  }

  /** select_single_click_handler: when the widget is open, commits the level.
      The pain entry is marked as awaiting both its merge into a record and
      its acknowledgement, stamped with `now`, and the widget is closed with
      the committed level kept. The closing goes through toggle_painlayer, so
      if the text layer alone is hidden it is shown instead, the level is reset
      to the default, and only the application's flag says hidden. */
  function SelectClick(s: State, now: int): (r: State)
    ensures s.painlayerHidden ==> r == s
    ensures !s.painlayerHidden ==>
      r.waitingPainData && r.waitingPainDataUpdate && r.painTime == now && r.painlayerHidden
    ensures VisibilityAgrees(s) && !s.painlayerHidden ==>
      r == SetHidden(s, true).(waitingPainData := true, waitingPainDataUpdate := true, painTime := now)
    ensures !s.painlayerHidden && s.levelLayerHidden ==>
      r == SetHidden(s, false).(numPain := DefaultLevel, shownLevel := DefaultLevel,
                                waitingPainData := true, waitingPainDataUpdate := true,
                                painTime := now, painlayerHidden := true)
  {
    if s.painlayerHidden then s
    else
      var marked := s.(waitingPainData := true, waitingPainDataUpdate := true, painTime := now);
      Toggle(marked).(painlayerHidden := true)
  }

  /** Once the widget is closed by a commit, a second commit does nothing. */
  lemma SelectTwiceIsOnce(s: State, first: int, second: int)
    requires VisibilityAgrees(s)
    ensures SelectClick(SelectClick(s, first), second) == SelectClick(s, first)
  {
  }

  /** handle_second_tick, given the seconds field of the current time: on a
      multiple of 15 seconds the widget is shown when no pain entry awaits
      acknowledgement and hidden when one does; at any other second nothing
      happens. */
  function SecondTick(s: State, seconds: nat): (r: State)
    ensures seconds % TickPeriod != 0 ==> r == s
    ensures seconds % TickPeriod == 0 ==> r.levelLayerHidden == s.waitingPainData
    ensures r.levelLayerHidden == s.levelLayerHidden ==> r == s
    ensures r != s ==> VisibilityAgrees(r)
    ensures s.levelLayerHidden && !r.levelLayerHidden ==>
      r.numPain == DefaultLevel && r.shownLevel == DefaultLevel
    ensures !s.levelLayerHidden ==> r.numPain == s.numPain && r.shownLevel == s.shownLevel
    ensures SameBookkeeping(s, r)
  {
    if seconds % TickPeriod != 0 then s
    else
      var shown := if !s.waitingPainData && s.levelLayerHidden then Toggle(s) else s;
      if shown.waitingPainData && !shown.levelLayerHidden then Toggle(shown) else shown
  }

  /** Two ticks on the same boundary act like one: the second finds the
      widget already as the rule wants it. */
  lemma SecondTickIdempotent(s: State, seconds: nat)
    ensures SecondTick(SecondTick(s, seconds), seconds) == SecondTick(s, seconds)
  {
  }
}

=== FILE: pain_messages.dfy ===
/** The outbox callbacks: what the application records when the message
    channel reports that a message was delivered or that it failed. */
module PainMessages {
  import opened PainState

  /** out_failed_handler: counts the failure and frees the in-flight gate;
      both obligations (accelerometer data and pain entry) stay pending. */
  function OutFailed(s: State): (r: State)
    ensures r.failCount == (s.failCount + 1) % U16Modulus
    ensures !r.msgRun
    ensures r.waitingAccelData == s.waitingAccelData && r.waitingPainData == s.waitingPainData
    ensures r.(failCount := s.failCount, msgRun := s.msgRun) == s
  {
    s.(failCount := Inc16(s.failCount), msgRun := false)
  }

  /** out_received_handler: the accelerometer obligation is discharged, the
      pain obligation too unless the last payload's pain field was the
      sentinel, the acknowledgement is counted and the gate freed. */
  function OutReceived(s: State): (r: State)
    ensures !r.waitingAccelData && !r.msgRun
    ensures r.waitingPainData <==> s.waitingPainData && s.numPainSend == EmptyValue
    ensures r.ackCount == (s.ackCount + 1) % U16Modulus
    ensures r.(ackCount := s.ackCount, msgRun := s.msgRun,
               waitingAccelData := s.waitingAccelData, waitingPainData := s.waitingPainData) == s
  {
    var accelDone := s.(waitingAccelData := false);
    var painDone :=
      if accelDone.numPainSend != EmptyValue then accelDone.(waitingPainData := false) else accelDone;
    painDone.(ackCount := Inc16(painDone.ackCount), msgRun := false)
  }

  /** The two callbacks touch disjoint counters and read nothing the other
      writes, so their order does not matter. */
  lemma OutcomesCommute(s: State)
    ensures OutReceived(OutFailed(s)) == OutFailed(OutReceived(s))
  {
  }

  /** A failure leaves the obligations for a later attempt; a delivery after
      it discharges them (when the payload carried pain data) and both
      outcomes are counted. */
  lemma FailureThenDelivery(s: State)
    requires s.numPainSend != EmptyValue
    ensures var f := OutFailed(s);
      f.waitingAccelData == s.waitingAccelData && f.waitingPainData == s.waitingPainData
    ensures var r := OutReceived(OutFailed(s));
      && !r.waitingAccelData && !r.waitingPainData && !r.msgRun
      && r.failCount == (s.failCount + 1) % U16Modulus
      && r.ackCount == (s.ackCount + 1) % U16Modulus
  {
  }
}

=== FILE: pain_state.dfy ===
/** The data of the pain-entry application: the process-wide flags and
    counters of pain.c, the accelerometer reading the sensor service delivers,
    and the logical record the application writes for each reading.

    All handlers of the application are pure functions over `State`; the
    modules PainDisplay, PainAccel and PainMessages define them and PainApp
    ties them together into an event loop. */
module PainState {

  /** Sentinel written into both pain fields of a record that carries no pain
      data (EMPTY_VALUE). */
  const EmptyValue: int := -1
  /** The level the entry widget shows each time it is opened. */
  const DefaultLevel: int := 5
  const MaxLevel: int := 10
  /** The widget is re-synchronised on every second that is a multiple of this. */
  const TickPeriod: nat := 15
  const U16Modulus: int := 0x1_0000

  type i8 = x: int | -0x80 <= x < 0x80
  type i16 = x: int | -0x8000 <= x < 0x8000
  type u16 = x: int | 0 <= x < 0x1_0000
  type u64 = x: int | 0 <= x < 0x1_0000_0000_0000_0000

  /** A pain level as the entry widget can display it. */
  type Level = x: int | 0 <= x <= 10

  /** `uint16_t` increment: wraps from 65535 back to 0. */
  function Inc16(n: u16): (r: u16)
    ensures r == (n + 1) % U16Modulus
  {
    if n == 0xFFFF then 0 else n + 1
  }

  /** A level pushed back into 0..10. */
  function Clamp(n: int): (r: Level)
    ensures n <= 0 ==> r == 0
    ensures n >= MaxLevel ==> r == MaxLevel
    ensures 0 <= n <= MaxLevel ==> r == n
  {
    if n < 0 then 0 else if n > MaxLevel then MaxLevel else n
  }

  /** One reading of the accelerometer service: three signed axes and the
      capture time, in milliseconds. */
  datatype AccelSample = AccelSample(x: i16, y: i16, z: i16, timestamp: u64)

  /** One delivery of the accelerometer service: as many readings as its
      32-bit unsigned count can hold; the application subscribes for 3 per
      delivery. */
  type Batch = b: seq<AccelSample> | |b| < 0x1_0000_0000

  /** The record written for one reading: the reading itself, and the level
      and commit time of a pain entry, or `EmptyValue` in both. */
  datatype Record = Record(x: int, y: int, z: int, time: int, painLevel: int, painTime: int)

  /** The whole mutable state of the application. */
  datatype State = State(
    numPain: i8,                  // the level last read, adjusted or committed
    shownLevel: Level,            // the number the pain-level text layer displays
    numPainSend: i8,              // compared against EMPTY_VALUE on acknowledgement
    painTime: int,                // commit time of the last pain entry
    sampleCount: u16,             // samples stored so far
    sentCount: u16,
    ackCount: u16,
    failCount: u16,
    waitingAccelData: bool,       // a stored sample has not been acknowledged
    waitingPainData: bool,        // a committed pain entry has not been acknowledged
    waitingPainDataUpdate: bool,  // a committed pain entry has not been merged into a record
    msgRun: bool,                 // a message is in flight
    painlayerHidden: bool,        // the application's own copy of the widget's visibility
    levelLayerHidden: bool,       // hidden bit of the pain-level text layer
    upArrowHidden: bool,          // hidden bit of the up-arrow bitmap layer
    downArrowHidden: bool         // hidden bit of the down-arrow bitmap layer
  )

  /** Outcome of one handler: the state after it and the records it wrote. */
  datatype Outcome = Outcome(state: State, written: seq<Record>)

  /** The application's visibility flag agrees with the hidden bit of each of
      the three layers that make up the entry widget. */
  ghost predicate VisibilityAgrees(s: State)
  {
    && s.painlayerHidden == s.levelLayerHidden
    && s.upArrowHidden == s.levelLayerHidden
    && s.downArrowHidden == s.levelLayerHidden
  }

  /** Nothing outside the entry widget (its level and visibility) differs. */
  ghost predicate SameBookkeeping(s: State, r: State)
  {
    r.(numPain := s.numPain, shownLevel := s.shownLevel,
       painlayerHidden := s.painlayerHidden, levelLayerHidden := s.levelLayerHidden,
       upArrowHidden := s.upArrowHidden, downArrowHidden := s.downArrowHidden) == s
  }

  /** A record that carries no pain data. */
  predicate Unmarked(rec: Record)
  {
    rec.painLevel == EmptyValue && rec.painTime == EmptyValue
  }

  /** The record holds the reading `d` unchanged. */
  predicate Keeps(rec: Record, d: AccelSample)
  {
    rec.x == d.x && rec.y == d.y && rec.z == d.z && rec.time == d.timestamp
  }
}
